=== FILE: README.md ===
# N-in-a-row board rules, modelled in Dafny

A model of the rules engine of a generalised Gomoku game (`code/game.py`):
a board of `width × height` cells numbered row by row, two players `1` and
`2` who alternate, and a win for whoever first gets `n_in_row` of their
stones in a straight horizontal, vertical, diagonal or anti-diagonal line.

- `coords.dfy` (module `Coords`): the move/location codec `move_to_location`
  and `location_to_move`, with both round trips and the sentinel `-1`.
- `runs.dfy` (module `Runs`): what a winning run is, stated twice. Once the
  way `has_a_winner` looks for it (an occupied anchor cell, a bounds guard on
  its row and column, `n` cells stepped by a stride of `1`, `width`,
  `width + 1` or `width - 1`, a missing cell never matching), and once as
  plain geometry (`n` on-board points on a line, all owned by one player).
  The lemmas prove the two agree, that a run needs `n` stones of its owner,
  and that a move can only complete a run for the player who made it.
- `board.dfy` (module `GameBoard`): the `Board` class with the fields the
  source updates in place (`states`, `available`, `currentPlayer`,
  `lastMove`). Ghost fields record the moves applied since `init_board`
  and the first player. The invariant `Valid` says:
  - the occupancy is the replay of those moves, alternating from the first
    player;
  - `available` is the ascending list of the empty cells;
  - the player to move and the last move follow from the history.

  `InitBoard` and `DoMove` keep it. The win detector `HasAWinner` is proved
  sound and complete against the geometric `HasRun`. The proof includes the
  fact that the `2n - 1` short-cut is safe, because with alternating turns
  nobody owns `n` stones any earlier. `GameEnd` is proved to report a win,
  a draw on a full board, or a game still in play.
- `self_play.dfy` (module `SelfPlay`): the outcome labels of
  `start_self_play` and its loop. The agent is replaced by the sequence of
  `(move, probabilities)` answers it gives.
  - Each training sample pairs the position before a move with the agent's
    probabilities for it and the mover's label.
  - Every position before the last move was still in play.
  - A win belongs to the last mover, so the labels alternate back from `+1`.
  - A draw leaves a full board without a run.

## Model

| member | source | states |
|---|---|---|
| Coords.MoveToLocation | code/game.py:20-28 | the location has two entries, its column lies in `[0, width)` and `row * width + col` gives the move back |
| Coords.LocationToMove | code/game.py:30-39 | a location of length two is accepted exactly when `row * width + col` is a cell index in `[0, width * height)`, and then that index is the result; every other outcome is the sentinel `-1` |
| Coords.MoveRoundTrip | code/game.py:20-39 | every cell index maps to an on-board `[row, col]` that maps back to the same index |
| Coords.LocationRoundTrip | code/game.py:20-39 | every on-board `[row, col]` maps to `row * width + col`, which maps back to `[row, col]` |
| Coords.MalformedLocation | code/game.py:31-32 | a location whose length is not two is rejected with `-1` |
| Coords.LinearIndexAccepted | code/game.py:34-39 | every pair `[row, col]` whose linear index is a cell index is accepted as that cell, whether or not the column is on the board |
| Coords.LinearIndexRejected | code/game.py:34-38 | every pair whose linear index is not a cell index gives `-1` |
| Coords.ColumnsWrapIntoNextRow | code/game.py:34-38 | on any board of two or more rows, the off-board `[0, width]` and `[2, -1]` are accepted as the cells `width` and `2 * width - 1` |
| GameBoard.PlayerOfIndex | code/game.py:9-15 | tuple indexing of `(1, 2)` succeeds exactly for indices `-2 .. 1` and selects player 1 exactly for `0` and `-2` |
| GameBoard.Cells | code/game.py:16 | `list(range(count))`: entry `i` is `i` |
| GameBoard.RemoveFirst | code/game.py:43 | `list.remove`: one entry shorter, the entries before the first occurrence kept and those after it shifted down by one |
| GameBoard.RemoveFirstAscending | code/game.py:43 | removing a cell from an ascending list leaves an ascending list |
| GameBoard.RemoveFirstMembers | code/game.py:43 | removing a cell from a list without repeats leaves exactly the other cells |
| GameBoard.Board.constructor | code/game.py:5-10 | sets the dimensions and an empty occupancy |
| GameBoard.Board.InitBoard | code/game.py:12-18 | a board smaller than the run length fails first, then a start-player index that selects no player; otherwise the invariant holds with an empty board, `available == [0 .. width*height - 1]`, `lastMove == -1` and the selected player to move; a failure changes nothing |
| GameBoard.ConsistentAfterMove | code/game.py:41-45 | playing an available cell for the player to move keeps the invariant (replay, disjoint and covering partition, ascending `available`, turn and last move) |
| GameBoard.Board.DoMove | code/game.py:41-45 | `states[move]` becomes the mover's in every case; the call succeeds exactly when `move` was available, and then `available` loses exactly `move`, the turn flips, `lastMove == move` and the invariant holds; otherwise nothing else changes |
| GameBoard.Board.GetCurrentPlayer | code/game.py:47-48 | the player to move is 1 or 2, and it is the first player exactly when an even number of cells is occupied |
| GameBoard.OccupiedIsComplement | code/game.py:68 | the board's cells less the available ones are exactly the occupied cells |
| GameBoard.Board.Moved | code/game.py:68 | `moved` is exactly the set of occupied cells |
| GameBoard.ReplayKeys | code/game.py:42 | the occupied cells are exactly the cells played |
| GameBoard.ReplayOwnedCount | code/game.py:42-44 | under alternating turns, after `k` moves the first player owns `(k + 1) / 2` cells and the other player `k / 2` |
| GameBoard.LastMoveIsNew | code/game.py:42-43 | in a history without repeats each move is played on an empty cell and extends the replay by one entry |
| GameBoard.ShortGameHasNoRun | code/game.py:68-70 | with fewer than `2n - 1` moves nobody has `n` in a row, so the early `(False, -1)` is never wrong |
| GameBoard.PartitionAfterMove | code/game.py:42-43 | occupancy and available list stay complementary, and the list stays ascending, after a legal move |
| GameBoard.ReplayAfterMove | code/game.py:42-44 | a legal move extends the replayed history by that cell for the player to move |
| GameBoard.Board.CheckRun | code/game.py:78-84 | for a player 1 or 2, the flag is set exactly when all `n` cells `m + k * stride` hold that player; an empty cell never matches |
| GameBoard.Board.RunStartsAt | code/game.py:72-109 | `found` holds exactly when some direction's bounds guard and stride test pass from `m`; then its owner has a geometric run, and otherwise no direction yields a guarded run from `m` |
| GameBoard.Board.HasAWinner | code/game.py:63-111 | sound: a reported winner is 1 or 2 and has `n` in a row; complete: `(False, -1)` only when nobody has one; and always `False` below `2n - 1` stones |
| GameBoard.Board.GameEnd | code/game.py:113-119 | a win ends the game with a winner who has a run; otherwise a full board ends it as a draw (`-1`) with no run; otherwise play continues with no run and an empty cell left |
| Runs.OwnedAfterMove | code/game.py:42 | giving an empty cell to a player adds it to that player's cells only |
| Runs.PointIndex | code/game.py:79-104 | the k-th point of a line in each direction is the k-th cell stepped by its stride `1`, `width`, `width + 1` or `width - 1` |
| Runs.AnchoredRunIsLine | code/game.py:72-109 | soundness of the guarded stride test: every accepted run is `n` on-board points in a straight line owned by the anchor's owner |
| Runs.LineIsAnchoredRun | code/game.py:72-109 | completeness of the guarded stride test: every geometric run passes it from its first point |
| Runs.StrideCellIncreasing | code/game.py:79-104 | a positive stride only moves forward |
| Runs.SteppedCellsCount | code/game.py:79-104 | `n` cells stepped by a positive stride are `n` distinct cells |
| Runs.RunNeedsStones | code/game.py:68-109 | any accepted run needs `n` stones of its owner |
| Runs.OnlyTheMoverCanWin | code/game.py:136-144 | if `p` had no run before a cell was given to `q` and has one after, then `p == q` |
| SelfPlay.WinnersZ | code/game.py:141-144 | one label per recorded step: all `0` after a draw; otherwise `1` exactly where the recorded player is the winner, and `-1` elsewhere |
| SelfPlay.WinnerLabelsAlternate | code/game.py:141-144 | when the last mover wins, the label of step `i` is `1` if `k - 1 - i` is even and `-1` otherwise |
| SelfPlay.Zip | code/game.py:151 | `zip` of three lists: as long as the shortest, element by element |
| SelfPlay.MoversGrow | code/game.py:135 | one more step appends the next player to move |
| SelfPlay.MovesOfGrow | code/game.py:131-136 | one more answer appends its move |
| SelfPlay.ProbsOfGrow | code/game.py:134 | one more answer appends its probabilities |
| SelfPlay.PositionsGrow | code/game.py:133 | one more move appends the position before it |
| SelfPlay.RecordNextMove | code/game.py:131-136 | each applied move grows the positions, the probabilities and the players to move by one entry, kept in step with the moves |
| SelfPlay.InPlayBeforeMove | code/game.py:130-139 | the positions before earlier moves stay in play after a further move |
| SelfPlay.InPlayNextMove | code/game.py:139-140 | a game that does not end after a move keeps every position so far in play |
| SelfPlay.LabelledSamples | code/game.py:141-151 | sample `i` is the position before move `i`, the agent's probabilities for it and its mover's label |
| SelfPlay.WinnerSamplesAlternate | code/game.py:141-151 | when the last mover wins, the samples' labels alternate back from `+1` |
| SelfPlay.LastMoverWins | code/game.py:136-144 | a run present right after a move from a position in play belongs to the player who moved |
| SelfPlay.ConcludeFinished | code/game.py:139-151 | labelling the records of a game that just ended gives the promised finished game (samples, positions in play, winner or draw) |
| SelfPlay.Game.constructor | code/game.py:123-124 | the game plays on the given board |
| SelfPlay.Game.StartSelfPlay | code/game.py:126-151 | a board smaller than the run length is refused, and only then; otherwise the game is played out as `PlayOut` states |
| SelfPlay.Game.PlayOut | code/game.py:129-151 | ends with one of three outcomes. Finished: the moves are the agent's first `k` answers and there are `k` samples, each with its position, probabilities and label; every earlier position was in play; a winner made the last move, has a run and has alternating labels; a draw leaves a full board with no run. IllegalMove: the answer at step `k` named an unavailable cell after `k` moves in play. AgentStopped: every answer was played and the game is still in play |

## Left out

- `current_state` (code/game.py:50-61), the numeric feature tensor, is not modelled. Self-play records the occupancy map before each move in its place. The tensor's columns use `% height` and so agree with the codec only on square boards. On boards taller than wide it raises `IndexError` instead (see the `SelfPlay.Game.PlayOut` line below).
- `graphic`, console output and winner messages (code/game.py:137-138, 146-150) are I/O and are left out. So is the `is_shown` flag.
- `start_play` (code/game.py:153-177) is not modelled. Its `end` is assigned only when `is_shown` is set.
- The agent is left out: `get_action`, `reset_player`, `set_player_ind` and the temperature `temp`. Self-play takes the agent's answers as a sequence of `(move, probabilities)` pairs, with the probabilities opaque.
- SelfPlay.Game.PlayOut: an agent that runs out of answers stops the loop with `AgentStopped`. The source would instead keep asking the agent.
- SelfPlay.Game.PlayOut: on a board taller than wide (`height > width`) the source's self-play aborts, and the model does not capture that. `current_state()` at code/game.py:133 builds planes of shape `(width, height)` and indexes rows by `move // width` (code/game.py:51-58). It raises `IndexError` on the first pass after a stone, or the last move, lands in a row `>= width`. The model instead records the occupancy and plays on to `Finished`, `IllegalMove` or `AgentStopped`. `SelfPlay.Game.StartSelfPlay` inherits the same gap.
- SelfPlay.WinnersZ: labels are the integers `1`, `-1` and `0` rather than numpy floats, and the result is a sequence rather than an array.
- GameBoard.Board.constructor: requires all three dimensions to be at least 1. The source converts any value with `int(...)`, with defaults of 8, 8 and 5.
- GameBoard.Board.DoMove: requires `Valid`, so a `do_move` before any `init_board` is excluded. In the source that call fails with `AttributeError`, because `current_player` is not set yet.
- GameBoard.Board.DoMove: a move that is not available reports `false` with `states[move]` already written. The source raises `ValueError` from `list.remove` at that point, and the board stays in that half-updated state.
- GameBoard.Board.HasAWinner: which player is reported when both players have a run depends on set iteration order. The model chooses the next anchor cell arbitrarily, so its contract says only that the reported player has a run.
- Coords.LocationToMove: location entries are integers. The source also accepts anything that multiplies and adds.
- `location_to_move` rejects only linear indices outside the board; row and column are never checked separately. The model follows the code (see `Coords.LinearIndexAccepted` and `Coords.ColumnsWrapIntoNextRow`).
- An anti-diagonal stride of `width - 1 == 0` would make Python's `range` raise. The model treats that check as an ordinary check, which is safe because on a board of width 1 the horizontal check always succeeds first.

=== FILE: board.dfy ===
/**
 * The board of an n-in-a-row game: which player occupies which cell, the
 * ascending list of empty cells, whose turn it is and the last move, kept
 * in step by `InitBoard` and `DoMove`, and read by the win detector
 * `HasAWinner` and the terminal check `GameEnd`.
 */
module GameBoard {
  import opened Runs

  datatype Option<T> = None | Some(value: T)

  /** Why `InitBoard` refuses to set up a game. */
  datatype InitError =
    | DimensionsTooSmall     // the width or the height is below the run length
    | StartPlayerOutOfRange  // the start-player index does not select one of the two players

  datatype Status = Ok | Failed(error: InitError)

  /** The two player identifiers, in the order a start-player index selects them. */
  const Players: seq<int> := [1, 2]

  /** The player a start-player index selects, with the negative indices a tuple accepts. */
  function PlayerOfIndex(index: int): (player: Option<int>)
    ensures player.Some? <==> -2 <= index <= 1
    ensures player.Some? ==> player.value == 1 || player.value == 2
    ensures player == Some(1) <==> index == 0 || index == -2
  {
    if 0 <= index < |Players| then Some(Players[index])
    else if -|Players| <= index < 0 then Some(Players[|Players| + index])
    else None
  }

  /** The player who makes move number i (from 0) when `first` moves first. */
  function PlayerAt(first: int, i: nat): int
  {
    if i % 2 == 0 then first else 3 - first
  }

  /** The occupancy after playing the moves of `history` in turn, `first` moving first. */
  function Replay(history: seq<int>, first: int): map<int, int>
  {
    if history == [] then map[]
    else Replay(history[..|history| - 1], first)[history[|history| - 1] := PlayerAt(first, |history| - 1)]
  }

  predicate Distinct(s: seq<int>)
  {
    forall i, j :: 0 <= i < j < |s| ==> s[i] != s[j]
  }

  predicate StrictlyAscending(s: seq<int>)
  {
    forall i, j :: 0 <= i < j < |s| ==> s[i] < s[j]
  }

  /** `list(range(count))`. */
  function Cells(count: int): (cells: seq<int>)
    ensures |cells| == if count < 0 then 0 else count
    ensures forall i :: 0 <= i < |cells| ==> cells[i] == i
  {
    if count <= 0 then [] else seq(count, i => i)
  }

  /** `range(count)` holds exactly the numbers from 0 below count. */
  lemma CellsMembership(count: int)
    ensures forall x :: x in Cells(count) <==> 0 <= x < count
  {
    forall x ensures x in Cells(count) <==> 0 <= x < count {
      if 0 <= x < count {
        assert Cells(count)[x] == x;
      }
    }
  }

  /** The position of the first occurrence of x in s. */
  function IndexOf(s: seq<int>, x: int): (i: nat)
    requires x in s
    ensures i < |s| && s[i] == x && x !in s[..i]
  {
    if s[0] == x then 0 else 1 + IndexOf(s[1..], x)
  }

  /**
   * `list.remove(x)`: drops the first occurrence of x and keeps the order of
   * everything else.
   */
  function RemoveFirst(s: seq<int>, x: int): (r: seq<int>)
    requires x in s
    ensures |r| == |s| - 1
    ensures forall i :: 0 <= i < |r| ==> r[i] == if i < IndexOf(s, x) then s[i] else s[i + 1]
  {
    s[..IndexOf(s, x)] + s[IndexOf(s, x) + 1..]
  }

  /** Removing a cell from an ascending list leaves an ascending list. */
  lemma RemoveFirstAscending(s: seq<int>, x: int)
    requires x in s && StrictlyAscending(s)
    ensures StrictlyAscending(RemoveFirst(s, x))
  {
    var r, k := RemoveFirst(s, x), IndexOf(s, x);
    forall i, j | 0 <= i < j < |r| ensures r[i] < r[j] {
      var i', j' := if i < k then i else i + 1, if j < k then j else j + 1;
      assert r[i] == s[i'] && r[j] == s[j'];
    }
  }

  /** Removing a cell from a list without repeats leaves exactly the other cells. */
  lemma RemoveFirstMembers(s: seq<int>, x: int)
    requires x in s && Distinct(s)
    ensures forall y :: y in RemoveFirst(s, x) <==> y in s && y != x
  {
    var r, k := RemoveFirst(s, x), IndexOf(s, x);
    forall y | y in s && y != x ensures y in r {
      var j :| 0 <= j < |s| && s[j] == y;
      if j < k { assert r[j] == y; } else { assert r[j - 1] == y; }
    }
    forall y | y in r ensures y in s && y != x {
      var j :| 0 <= j < |r| && r[j] == y;
      if j >= k { assert s[j + 1] == y; }
    }
  }

  /** The cells of a replayed game are exactly the cells played. */
  lemma {:induction false} ReplayKeys(history: seq<int>, first: int)
    ensures Replay(history, first).Keys == set x | x in history
  {
    if history != [] {
      var prefix := history[..|history| - 1];
      ReplayKeys(prefix, first);
      assert history == prefix + [history[|history| - 1]];
      assert (set x | x in history) == (set x | x in prefix) + {history[|history| - 1]};
    }
  }

  /**
   * With alternating turns the first player owns (k + 1) / 2 of the first k
   * moves and the other player k / 2.
   */
  lemma {:induction false} ReplayOwnedCount(history: seq<int>, first: int)
    requires first == 1 || first == 2
    requires Distinct(history)
    ensures |Owned(Replay(history, first), first)| == (|history| + 1) / 2
    ensures |Owned(Replay(history, first), 3 - first)| == |history| / 2
  {
    if history != [] {
      var k := |history| - 1;
      var prefix, x := history[..k], history[k];
      var before := Replay(prefix, first);
      LastMoveIsNew(history, first);
      ReplayOwnedCount(prefix, first);
      OwnedAfterMove(before, x, PlayerAt(first, k), first);
      OwnedAfterMove(before, x, PlayerAt(first, k), 3 - first);
      if k % 2 == 0 {
        assert PlayerAt(first, k) == first && (k + 2) / 2 == (k + 1) / 2 + 1 && (k + 1) / 2 == k / 2;
      } else {
        assert PlayerAt(first, k) == 3 - first && (k + 2) / 2 == (k + 1) / 2 && (k + 1) / 2 == k / 2 + 1;
      }
    }
  }

  /** In a history without repeats, the last move is played on a cell the earlier moves left empty. */
  lemma LastMoveIsNew(history: seq<int>, first: int)
    requires Distinct(history) && history != []
    ensures var k := |history| - 1;
      && Distinct(history[..k])
      && history[k] !in Replay(history[..k], first)
      && Replay(history, first) == Replay(history[..k], first)[history[k] := PlayerAt(first, k)]
  {
    var k := |history| - 1;
    var prefix := history[..k];
    ReplayKeys(prefix, first);
    forall i | 0 <= i < k ensures prefix[i] != history[k] {
      assert prefix[i] == history[i];
    }
  }

  /**
   * Why the detector may skip boards with fewer than 2n - 1 stones: under
   * alternating turns nobody can have n in a row before then.
   */
  lemma ShortGameHasNoRun(history: seq<int>, first: int, width: int, height: int, n: int)
    requires width > 0 && n >= 1 && (first == 1 || first == 2)
    requires Distinct(history) && WellFormed(Replay(history, first), width, height)
    requires |history| < 2 * n - 1
    ensures NoRun(Replay(history, first), width, height, n)
  {
    var states := Replay(history, first);
    forall p ensures !HasRun(states, width, height, n, p) {
      if HasRun(states, width, height, n, p) {
        var row, col, d :| LineAt(states, width, height, n, row, col, d, p);
        LineIsAnchoredRun(states, width, height, n, row, col, d, p);
        RunNeedsStones(states, width, height, n, row * width + col, d);
        ReplayOwnedCount(history, first);
        assert false;
      }
    }
  }

  /**
   * The occupancy is the replay of a history of distinct cells, alternating
   * between the players from `first`, one entry per move.
   */
  ghost predicate Replayed(states: map<int, int>, history: seq<int>, first: int, size: int)
  {
    && (first == 1 || first == 2)
    && Distinct(history)
    && (forall i :: 0 <= i < |history| ==> 0 <= history[i] < size)
    && states == Replay(history, first)
    && |states| == |history|
  }

  /** The available cells are, in ascending order, exactly the cells that are not occupied. */
  predicate Partitioned(states: map<int, int>, available: seq<int>, size: int)
  {
    && StrictlyAscending(available)
    && (forall x :: x in available ==> 0 <= x < size && x !in states)
    && (forall i :: 0 <= i < size && i !in states ==> i in available)
    && |states| + |available| == size
  }

  /** The occupied cells are the board's cells less the available ones. */
  lemma OccupiedIsComplement(states: map<int, int>, available: seq<int>, size: int)
    requires Partitioned(states, available, size)
    requires forall i :: i in states ==> 0 <= i < size
    ensures (set x | x in Cells(size)) - (set x | x in available) == states.Keys
  {
    CellsMembership(size);
    var moved := (set x | x in Cells(size)) - (set x | x in available);
    forall x ensures x in moved <==> x in states {
      if x in states {
        assert x in Cells(size) && x !in available;
      }
    }
  }

  /** Playing an available cell keeps occupancy and available cells complementary. */
  lemma PartitionAfterMove(states: map<int, int>, available: seq<int>, size: int, move: int, player: int)
    requires Partitioned(states, available, size) && move in available
    ensures Partitioned(states[move := player], RemoveFirst(available, move), size)
  {
    RemoveFirstAscending(available, move);
    assert Distinct(available);
    RemoveFirstMembers(available, move);
  }

  /** Playing a cell that was never played extends the replayed history by that cell. */
  lemma ReplayAfterMove(states: map<int, int>, history: seq<int>, first: int, size: int, move: int)
    requires Replayed(states, history, first, size)
    requires 0 <= move < size && move !in states
    ensures Replayed(states[move := PlayerAt(first, |history|)], history + [move], first, size)
  {
    var history' := history + [move];
    assert move !in history by {
      ReplayKeys(history, first);
    }
    assert Distinct(history') by {
      DistinctAppend(history, move);
    }
    assert forall i :: 0 <= i < |history'| ==> 0 <= history'[i] < size by {
      forall i | 0 <= i < |history'| ensures 0 <= history'[i] < size {
        if i < |history| {
          assert history'[i] == history[i];
        }
      }
    }
    assert Replay(history', first) == states[move := PlayerAt(first, |history|)] by {
      assert history'[..|history|] == history;
    }
  }

  /** Appending a value not yet present keeps a sequence free of repeats. */
  lemma DistinctAppend(s: seq<int>, x: int)
    requires Distinct(s) && x !in s
    ensures Distinct(s + [x])
  {
    var s' := s + [x];
    forall i, j | 0 <= i < j < |s'| ensures s'[i] != s'[j] {
      assert s'[i] == s[i];
      if j < |s| {
        assert s'[j] == s[j];
      }
    }
  }

  /**
   * The board's invariant on the values of its fields: the occupancy is the
   * replay of the moves played, its owners are players, the player to move
   * and the last move follow from the history, and the available cells are
   * the empty ones.
   */
  ghost predicate Consistent(states: map<int, int>, available: seq<int>, currentPlayer: int, lastMove: int,
                             history: seq<int>, first: int, width: int, height: int)
  {
    && Replayed(states, history, first, width * height)
    && WellFormed(states, width, height)
    && currentPlayer == PlayerAt(first, |history|)
    && lastMove == (if history == [] then -1 else history[|history| - 1])
    && Partitioned(states, available, width * height)
  }

  /** Playing an available cell for the player to move keeps the invariant. */
  lemma ConsistentAfterMove(states: map<int, int>, available: seq<int>, currentPlayer: int, lastMove: int,
                            history: seq<int>, first: int, width: int, height: int, move: int)
    requires Consistent(states, available, currentPlayer, lastMove, history, first, width, height)
    requires move in available
    ensures Consistent(states[move := currentPlayer], RemoveFirst(available, move), 3 - currentPlayer, move,
                       history + [move], first, width, height)
  {
    var size := width * height;
    var states', history' := states[move := currentPlayer], history + [move];
    assert 0 <= move < size && move !in states by {
      assert Partitioned(states, available, size);
    }
    assert currentPlayer == 1 || currentPlayer == 2 by {
      assert currentPlayer == PlayerAt(first, |history|) && (first == 1 || first == 2);
    }
    assert Partitioned(states', RemoveFirst(available, move), size) by {
      PartitionAfterMove(states, available, size, move, currentPlayer);
    }
    assert Replayed(states', history', first, size) by {
      ReplayAfterMove(states, history, first, size, move);
    }
    assert WellFormed(states', width, height) by {
      WellFormedAfterMove(states, width, height, move, currentPlayer);
    }
    assert history'[|history|] == move;
    assert PlayerAt(first, |history'|) == 3 - currentPlayer;
  }

  /** Giving an on-board cell to a player keeps the occupancy well formed. */
  lemma WellFormedAfterMove(states: map<int, int>, width: int, height: int, move: int, player: int)
    requires WellFormed(states, width, height)
    requires 0 <= move < width * height && (player == 1 || player == 2)
    ensures WellFormed(states[move := player], width, height)
  {
  }

  class Board {
    const width: int
    const height: int
    const nInRow: int

    /** Occupied cell -> player (1 or 2). */
    var states: map<int, int>
    /** Empty cells, ascending. */
    var available: seq<int>
    var currentPlayer: int
    /** The last cell played, or -1 before the first move. */
    var lastMove: int

    /** The moves applied since `InitBoard`, in order. */
    ghost var history: seq<int>
    /** The player `InitBoard` gave the first move. */
    ghost var first: int

    ghost predicate Configured()
      reads this
    {
      width >= 1 && height >= 1 && nInRow >= 1
    }

    /** The invariant between calls, once a game has been set up. */
    ghost predicate Valid()
      reads this
    {
      && Configured()
      && nInRow <= width && nInRow <= height
      && Consistent(states, available, currentPlayer, lastMove, history, first, width, height)
    }

    constructor (width: int, height: int, nInRow: int)
      requires width >= 1 && height >= 1 && nInRow >= 1
      ensures this.width == width && this.height == height && this.nInRow == nInRow
      ensures Configured()
      ensures states == map[]
    {
      this.width := width;
      this.height := height;
      this.nInRow := nInRow;
      states := map[];
    }

    /**
     * Starts a game: refuses a board smaller than the run length, then a
     * start-player index that selects no player; otherwise empties the board,
     * makes every cell available in ascending order and hands the first move
     * to the selected player.
     */
    method InitBoard(startPlayer: int) returns (status: Status)
      requires Configured()
      modifies this
      ensures width < nInRow || height < nInRow ==> status == Failed(DimensionsTooSmall)
      ensures width >= nInRow && height >= nInRow && PlayerOfIndex(startPlayer).None?
        ==> status == Failed(StartPlayerOutOfRange)
      ensures status.Ok? <==> width >= nInRow && height >= nInRow && PlayerOfIndex(startPlayer).Some?
      ensures status.Failed? ==> unchanged(this)
      ensures status.Ok? ==>
        && Valid()
        && states == map[]
        && available == Cells(width * height)
        && lastMove == -1
        && Some(currentPlayer) == PlayerOfIndex(startPlayer)
        && history == []
    {
      if width < nInRow || height < nInRow {
        return Failed(DimensionsTooSmall);
      }
      var player := PlayerOfIndex(startPlayer);
      if player.None? {
        return Failed(StartPlayerOutOfRange);
      }
      currentPlayer := player.value;
      available := Cells(width * height);
      states := map[];
      lastMove := -1;
      history := [];
      first := currentPlayer;
      forall i | 0 <= i < width * height ensures i in available {
        assert available[i] == i;
      }
      status := Ok;
    }

    /**
     * Plays `move` for the player to move. A move that is not available fails
     * the way `list.remove` does, after the occupancy has already been
     * written: `ok` is false, `states[move]` holds the player to move and
     * nothing else has changed.
     */
    method DoMove(move: int) returns (ok: bool)
      requires Valid()
      modifies this
      ensures ok <==> move in old(available)
      ensures states == old(states)[move := old(currentPlayer)]
      ensures ok ==>
        && Valid()
        && available == RemoveFirst(old(available), move)
        && currentPlayer == 3 - old(currentPlayer)
        && lastMove == move
        && history == old(history) + [move]
        && first == old(first)
      ensures !ok ==>
        && available == old(available) && currentPlayer == old(currentPlayer)
        && lastMove == old(lastMove) && history == old(history) && first == old(first)
    {
      states := states[move := currentPlayer];
      if move !in available {
        return false;
      }
      ConsistentAfterMove(old(states), available, currentPlayer, lastMove, history, first, width, height, move);
      available := RemoveFirst(available, move);
      currentPlayer := 3 - currentPlayer;
      lastMove := move;
      history := history + [move];
      ok := true;
    }

    /** The player to move: the first player after an even number of moves. */
    function GetCurrentPlayer(): (player: int)
      reads this
      requires Valid()
      ensures player == 1 || player == 2
      ensures player == (if |states| % 2 == 0 then first else 3 - first)
    {
      currentPlayer
    }

    /** The cells that have been played: every cell that is not available. */
    function Moved(): (moved: set<int>)
      reads this
      requires Valid()
      ensures moved == states.Keys
    {
      OccupiedIsComplement(states, available, width * height);
      (set x | x in Cells(width * height)) - (set x | x in available)
    }

    /**
     * All n cells stepped from m by `stride` belong to `player`; an empty
     * cell never matches. The k-th step visits the k-th value of
     * `range(m, m + n * stride, stride)`.
     */
    method CheckRun(m: int, stride: int, player: int) returns (flag: bool)
      requires Valid() && (player == 1 || player == 2)
      ensures flag <==> Matches(states, nInRow, m, stride, player)
    {
      for k := 0 to nInRow
        invariant forall j :: 0 <= j < k ==> Get(states, StrideCell(m, stride, j)) == player
      {
        if Get(states, m + k * stride) != player {
          assert Get(states, StrideCell(m, stride, k)) != player;
          return false;
        }
      }
      return true;
    }

    /**
     * One round of the detector's outer loop: tries the occupied cell m as the
     * first cell of a horizontal, a vertical, a diagonal and an anti-diagonal
     * run of its owner, each only where its bounds guard lets the run fit.
     */
    method RunStartsAt(m: int) returns (found: bool)
      requires Valid() && m in states
      ensures found <==> exists d :: AnchoredRun(states, width, height, nInRow, m, d)
      ensures found ==> HasRun(states, width, height, nInRow, states[m])
      ensures !found ==> NoRunFrom(states, width, height, nInRow, m)
    {
      var n := nInRow;
      var h := m / width;
      var w := m % width;
      var player := states[m];
      if 0 <= w < width - n + 1 {
        var flag := CheckRun(m, 1, player);
        if flag {
          assert AnchoredRun(states, width, height, n, m, Horizontal);
          AnchoredRunIsLine(states, width, height, n, m, Horizontal);
          return true;
        }
      }
      if 0 <= h < height - n + 1 {
        var flag := CheckRun(m, width, player);
        if flag {
          assert AnchoredRun(states, width, height, n, m, Vertical);
          AnchoredRunIsLine(states, width, height, n, m, Vertical);
          return true;
        }
      }
      if 0 <= w < width - n + 1 && 0 <= h < height - n + 1 {
        var flag := CheckRun(m, width + 1, player);
        if flag {
          assert AnchoredRun(states, width, height, n, m, Diagonal);
          AnchoredRunIsLine(states, width, height, n, m, Diagonal);
          return true;
        }
      }
      if n - 1 <= w < width && 0 <= h < height - n + 1 {
        var flag := CheckRun(m, width - 1, player);
        if flag {
          assert AnchoredRun(states, width, height, n, m, AntiDiagonal);
          AnchoredRunIsLine(states, width, height, n, m, AntiDiagonal);
          return true;
        }
      }
      return false;
    }

    /**
     * Win detection. Boards with fewer than 2n - 1 stones are skipped; then
     * every occupied cell, in no particular order, is tried as the first cell
     * of a horizontal, a vertical, a diagonal and an anti-diagonal run, and
     * the owner of the first run found is reported.
     */
    method HasAWinner() returns (win: bool, winner: int)
      requires Valid()
      ensures win ==> (winner == 1 || winner == 2) && HasRun(states, width, height, nInRow, winner)
      ensures !win ==> winner == -1 && NoRun(states, width, height, nInRow)
      ensures |states| < 2 * nInRow - 1 ==> !win
    {
      var n := nInRow;
      var moved := Moved();
      if |moved| < n * 2 - 1 {
        ShortGameHasNoRun(history, first, width, height, n);
        return false, -1;
      }
      var todo := moved;
      while todo != {}
        invariant todo <= moved
        invariant forall x :: x in moved && x !in todo ==> NoRunFrom(states, width, height, n, x)
        decreases |todo|
      {
        var m :| m in todo;
        todo := todo - {m};
        var found := RunStartsAt(m);
        if found {
          return true, states[m];
        }
      }
      forall p ensures !HasRun(states, width, height, n, p) {
        if HasRun(states, width, height, n, p) {
          var row, col, d :| LineAt(states, width, height, n, row, col, d, p);
          LineIsAnchoredRun(states, width, height, n, row, col, d, p);
          assert false;
        }
      }
      return false, -1;
    }

    /**
     * Terminal check: a win ends the game with its winner; otherwise a board
     * without available cells ends it as a draw (-1); otherwise play goes on.
     */
    method GameEnd() returns (end: bool, winner: int)
      requires Valid()
      ensures end && winner != -1 ==> (winner == 1 || winner == 2) && HasRun(states, width, height, nInRow, winner)
      ensures end && winner == -1 ==> NoRun(states, width, height, nInRow) && |states| == width * height
      ensures !end ==> winner == -1 && NoRun(states, width, height, nInRow) && |states| < width * height
    {
      var win;
      win, winner := HasAWinner();
      if win {
        return true, winner;
      } else if |available| == 0 {
        return true, -1;
      }
      return false, -1;
    }
  }
}

=== FILE: coords.dfy ===
/**
 * Conversion between a linear move index and a board location `[row, col]`.
 *
 * Cells are numbered row by row: on a board of width 3 the first row holds
 * moves 0, 1, 2, the second 3, 4, 5, and so on. The source divides with
 * Python's floor division and remainder; for the positive widths a board
 * has, these coincide with Dafny's Euclidean `/` and `%`.
 */
module Coords {

  /** `[row, col]` of a move: its quotient and remainder by the width. */
  function MoveToLocation(width: int, move: int): (location: seq<int>)
    requires width > 0
    ensures |location| == 2
    ensures 0 <= location[1] < width
    ensures move == location[0] * width + location[1]
  {
    [move / width, move % width]
  }

  /**
   * The move at a location, or the sentinel -1 when the location does not
   * have exactly two components or when `row * width + col` is not a cell
   * index. Only the linear index is checked, never row and column apart.
   */
  function LocationToMove(width: int, height: int, location: seq<int>): (move: int)
    ensures move == -1 || 0 <= move < height * width
    ensures move != -1 ==> |location| == 2 && move == location[0] * width + location[1]
    ensures |location| == 2 ==>
      (move == -1 <==> !(0 <= location[0] * width + location[1] < height * width))
  {
    if |location| != 2 then -1
    else
      var move := location[0] * width + location[1];
      if 0 <= move < height * width then move else -1
  }

  /** Multiplying by a non-negative width keeps the order of the factors. */
  lemma MulMonotone(a: int, b: int, width: int)
    requires a <= b && width >= 0
    ensures a * width <= b * width
  {
    assert b * width - a * width == (b - a) * width;
  }

  /** Division by the width recovers row and column of an in-row offset. */
  lemma DivModOfLocation(width: int, row: int, col: int)
    requires 0 <= col < width
    ensures (row * width + col) / width == row
    ensures (row * width + col) % width == col
  {
    var m := row * width + col;
    var q, r := m / width, m % width;
    assert m == q * width + r;
    if q > row {
      MulMonotone(row + 1, q, width);
    } else if q < row {
      MulMonotone(q + 1, row, width);
    }
  }

  /** A cell index lies in a row of the board. */
  lemma RowOfCell(width: int, height: int, move: int)
    requires width > 0 && 0 <= move < width * height
    ensures 0 <= move / width < height
  {
    var q := move / width;
    assert move == q * width + move % width;
    if q >= height {
      MulMonotone(height, q, width);
    }
  }

  /** Every cell index survives the trip through its location, and that location is on the board. */
  lemma MoveRoundTrip(width: int, height: int, move: int)
    requires width > 0 && 0 <= move < width * height
    ensures var location := MoveToLocation(width, move);
      && 0 <= location[0] < height && 0 <= location[1] < width
      && LocationToMove(width, height, location) == move
  {
    RowOfCell(width, height, move);
  }

  /** Every on-board location survives the trip through its move index. */
  lemma LocationRoundTrip(width: int, height: int, row: int, col: int)
    requires 0 <= row < height && 0 <= col < width
    ensures LocationToMove(width, height, [row, col]) == row * width + col
    ensures MoveToLocation(width, LocationToMove(width, height, [row, col])) == [row, col]
  {
    MulMonotone(row + 1, height, width);
    DivModOfLocation(width, row, col);
  }

  /**
   * Any location of a length other than two is rejected with the sentinel
   * (a corollary of the postconditions of `LocationToMove`, stated on its own).
   */
  lemma MalformedLocation(width: int, height: int, location: seq<int>)
    requires |location| != 2
    ensures LocationToMove(width, height, location) == -1
  {
  }

  /**
   * Row and column are not checked one by one: any pair whose linear index
   * `row * width + col` is a cell index is accepted as that cell, whatever
   * its column (a corollary of the postconditions of `LocationToMove`, stated
   * for pairs).
   */
  lemma LinearIndexAccepted(width: int, height: int, row: int, col: int)
    requires 0 <= row * width + col < height * width
    ensures LocationToMove(width, height, [row, col]) == row * width + col
  {
  }

  /**
   * Any pair whose linear index is not a cell index is rejected with the
   * sentinel (a corollary of the postconditions of `LocationToMove`, stated
   * for pairs).
   */
  lemma LinearIndexRejected(width: int, height: int, row: int, col: int)
    requires !(0 <= row * width + col < height * width)
    ensures LocationToMove(width, height, [row, col]) == -1
  {
  }

  /**
   * An instance of the above: on a board of two or more rows, the off-board
   * column `width` of row 0 is taken for the first cell of row 1, and
   * column -1 of row 2 for the last cell of row 1.
   */
  lemma ColumnsWrapIntoNextRow(width: int, height: int)
    requires width > 0 && height >= 2
    ensures LocationToMove(width, height, [0, width]) == width
    ensures LocationToMove(width, height, [1, 0]) == width
    ensures LocationToMove(width, height, [2, -1]) == 2 * width - 1
  {
    assert height * width >= 2 * width;
  }
}

=== FILE: runs.dfy ===
/**
 * Winning runs on a board, stated twice: once the way the win detector
 * looks for them (an occupied anchor cell, a bounds guard on its row and
 * column, and `n` cells stepped by a fixed index stride), and once as plain
 * geometry (`n` on-board points on a straight line, all owned by one
 * player). The lemmas here show the two notions agree, and that a run needs
 * `n` cells of its owner.
 */
module Runs {
  import opened Coords

  /** The four directions the detector scans, each from the run's first cell. */
  datatype Direction = Horizontal | Vertical | Diagonal | AntiDiagonal

  /** Row change per step along a direction. */
  function RowStep(d: Direction): int
  {
    if d == Horizontal then 0 else 1
  }

  /** Column change per step along a direction (the anti-diagonal runs towards column 0). */
  function ColStep(d: Direction): int
  {
    match d
    case Horizontal => 1
    case Vertical => 0
    case Diagonal => 1
    case AntiDiagonal => -1
  }

  /** Index step of a direction in row-major numbering: 1, width, width + 1, width - 1. */
  function Stride(d: Direction, width: int): int
  {
    match d
    case Horizontal => 1
    case Vertical => width
    case Diagonal => width + 1
    case AntiDiagonal => width - 1
  }

  /**
   * The detector's bounds guard: an anchor at (row, col) may start a run in
   * direction d only if the run's last cell is still on the board, so that
   * stepping by the stride never wraps from one row's edge into the next.
   */
  predicate Fits(d: Direction, width: int, height: int, n: int, row: int, col: int)
  {
    match d
    case Horizontal => 0 <= col < width - n + 1
    case Vertical => 0 <= row < height - n + 1
    case Diagonal => 0 <= col < width - n + 1 && 0 <= row < height - n + 1
    case AntiDiagonal => n - 1 <= col < width && 0 <= row < height - n + 1
  }

  /** The owner of a cell, or -1 for an empty one (`dict.get(i, -1)`). */
  function Get(states: map<int, int>, i: int): int
  {
    if i in states then states[i] else -1
  }

  /** The k-th cell stepped from m. */
  function StrideCell(m: int, stride: int, k: int): int
  {
    m + k * stride
  }

  /** All n cells stepped from m are owned by p, as the detector's inner loop checks. */
  predicate Matches(states: map<int, int>, n: int, m: int, stride: int, p: int)
  {
    forall k :: 0 <= k < n ==> Get(states, StrideCell(m, stride, k)) == p
  }

  /** What the detector accepts: an occupied anchor, the guard, and n matching cells. */
  predicate AnchoredRun(states: map<int, int>, width: int, height: int, n: int, m: int, d: Direction)
    requires width > 0
  {
    && m in states
    && Fits(d, width, height, n, m / width, m % width)
    && Matches(states, n, m, Stride(d, width), states[m])
  }

  /** No direction yields a run anchored at m. */
  predicate NoRunFrom(states: map<int, int>, width: int, height: int, n: int, m: int)
    requires width > 0
  {
    forall d :: !AnchoredRun(states, width, height, n, m, d)
  }

  /** The k-th point, as (row, col), on the line from (row, col) in direction d. */
  function Point(row: int, col: int, d: Direction, k: int): (int, int)
  {
    (row + k * RowStep(d), col + k * ColStep(d))
  }

  /** The point is on the board and its cell is owned by p. */
  predicate OwnedAt(states: map<int, int>, width: int, height: int, point: (int, int), p: int)
  {
    && 0 <= point.0 < height && 0 <= point.1 < width
    && point.0 * width + point.1 in states
    && states[point.0 * width + point.1] == p
  }

  /** n consecutive points from (row, col) in direction d are on the board and owned by p. */
  predicate LineAt(states: map<int, int>, width: int, height: int, n: int, row: int, col: int, d: Direction, p: int)
  {
    forall k :: 0 <= k < n ==> OwnedAt(states, width, height, Point(row, col, d, k), p)
  }

  /** Player p has n in a row somewhere on the board. */
  ghost predicate HasRun(states: map<int, int>, width: int, height: int, n: int, p: int)
  {
    exists row, col, d :: LineAt(states, width, height, n, row, col, d, p)
  }

  /** Neither player (nor anyone else) has n in a row. */
  ghost predicate NoRun(states: map<int, int>, width: int, height: int, n: int)
  {
    forall p :: !HasRun(states, width, height, n, p)
  }

  /** Occupied cells are cell indices and their owners are players 1 and 2. */
  predicate WellFormed(states: map<int, int>, width: int, height: int)
  {
    forall i :: i in states ==> 0 <= i < width * height && (states[i] == 1 || states[i] == 2)
  }

  /** The cells owned by p. */
  function Owned(states: map<int, int>, p: int): (cells: set<int>)
  {
    set i | i in states && states[i] == p
  }

  /** Giving an empty cell x to q adds x to the cells of q and leaves everyone else's alone. */
  lemma OwnedAfterMove(states: map<int, int>, x: int, q: int, p: int)
    requires x !in states
    ensures Owned(states[x := q], p) == if p == q then Owned(states, p) + {x} else Owned(states, p)
    ensures |Owned(states[x := q], p)| == |Owned(states, p)| + (if p == q then 1 else 0)
  {
    assert x !in Owned(states, p);
  }

  /** The index of the k-th point of a line is the k-th cell stepped by the direction's stride. */
  lemma PointIndex(width: int, row: int, col: int, d: Direction, k: int)
    ensures Point(row, col, d, k).0 * width + Point(row, col, d, k).1
         == StrideCell(row * width + col, Stride(d, width), k)
  {
    match d
    case Horizontal =>
    case Vertical =>
      assert (row + k) * width == row * width + k * width;
    case Diagonal =>
      assert (row + k) * width == row * width + k * width;
      assert k * (width + 1) == k * width + k;
    case AntiDiagonal =>
      assert (row + k) * width == row * width + k * width;
      assert k * (width - 1) == k * width - k;
  }

  /** Every point of a run whose anchor passes the guard is on the board. */
  lemma FitsKeepsPointsOnBoard(d: Direction, width: int, height: int, n: int, row: int, col: int, k: int)
    requires 0 <= row < height && 0 <= col < width
    requires Fits(d, width, height, n, row, col) && 0 <= k < n
    ensures 0 <= Point(row, col, d, k).0 < height && 0 <= Point(row, col, d, k).1 < width
  {
  }

  /** Soundness of the detector's test: an anchored run is a line of the anchor's owner. */
  lemma AnchoredRunIsLine(states: map<int, int>, width: int, height: int, n: int, m: int, d: Direction)
    requires width > 0 && WellFormed(states, width, height)
    requires AnchoredRun(states, width, height, n, m, d)
    ensures LineAt(states, width, height, n, m / width, m % width, d, states[m])
    ensures HasRun(states, width, height, n, states[m])
  {
    var row, col, p := m / width, m % width, states[m];
    RowOfCell(width, height, m);
    assert m == row * width + col;
    forall k | 0 <= k < n
      ensures OwnedAt(states, width, height, Point(row, col, d, k), p)
    {
      FitsKeepsPointsOnBoard(d, width, height, n, row, col, k);
      PointIndex(width, row, col, d, k);
      assert Get(states, StrideCell(m, Stride(d, width), k)) == p;
    }
  }

  /** Completeness of the detector's test: every line is found from its first point. */
  lemma LineIsAnchoredRun(states: map<int, int>, width: int, height: int, n: int,
                          row: int, col: int, d: Direction, p: int)
    requires width > 0 && n >= 1
    requires LineAt(states, width, height, n, row, col, d, p)
    ensures row * width + col in states && states[row * width + col] == p
    ensures AnchoredRun(states, width, height, n, row * width + col, d)
  {
    var m := row * width + col;
    assert OwnedAt(states, width, height, Point(row, col, d, 0), p);
    assert OwnedAt(states, width, height, Point(row, col, d, n - 1), p);
    DivModOfLocation(width, row, col);
    forall k | 0 <= k < n
      ensures Get(states, StrideCell(m, Stride(d, width), k)) == p
    {
      assert OwnedAt(states, width, height, Point(row, col, d, k), p);
      PointIndex(width, row, col, d, k);
    }
  }

  /** Stepping by a positive stride only moves forward. */
  lemma StrideCellIncreasing(m: int, stride: int, j: int, k: int)
    requires stride >= 1 && j < k
    ensures StrideCell(m, stride, j) < StrideCell(m, stride, k)
  {
    MulMonotone(1, k - j, stride);
    assert k * stride - j * stride == (k - j) * stride;
  }

  /** The n cells stepped from m by a positive stride are n distinct cells. */
  lemma {:induction false} SteppedCellsCount(m: int, stride: int, n: nat)
    requires stride >= 1
    ensures |set k | 0 <= k < n :: StrideCell(m, stride, k)| == n
  {
    if n > 0 {
      var before := set k | 0 <= k < n - 1 :: StrideCell(m, stride, k);
      var last := StrideCell(m, stride, n - 1);
      SteppedCellsCount(m, stride, n - 1);
      assert last !in before by {
        forall k | 0 <= k < n - 1 ensures StrideCell(m, stride, k) != last {
          StrideCellIncreasing(m, stride, k, n - 1);
        }
      }
      assert (set k | 0 <= k < n :: StrideCell(m, stride, k)) == before + {last};
    }
  }

  /** A run of n needs n cells of its owner. */
  lemma RunNeedsStones(states: map<int, int>, width: int, height: int, n: int, m: int, d: Direction)
    requires width > 0 && n >= 1 && WellFormed(states, width, height)
    requires AnchoredRun(states, width, height, n, m, d)
    ensures |Owned(states, states[m])| >= n
  {
    var p := states[m];
    if n == 1 {
      assert m in Owned(states, p);
    } else {
      var stride := Stride(d, width);
      assert stride >= 1;
      var cells := set k | 0 <= k < n :: StrideCell(m, stride, k);
      SteppedCellsCount(m, stride, n);
      forall c | c in cells ensures c in Owned(states, p) {
        var k :| 0 <= k < n && c == StrideCell(m, stride, k);
        assert Get(states, StrideCell(m, stride, k)) == p;
      }
      var owned := Owned(states, p);
      assert owned == cells + (owned - cells);
      assert |owned| == |cells| + |owned - cells|;
    }
  }

  /**
   * A move can only complete a run for the player who makes it: if p had no
   * run before cell m was given to q, and has one after, then p is q.
   */
  lemma OnlyTheMoverCanWin(states: map<int, int>, width: int, height: int, n: int, m: int, q: int, p: int)
    requires !HasRun(states, width, height, n, p)
    requires HasRun(states[m := q], width, height, n, p)
    ensures p == q
  {
    var after := states[m := q];
    var row, col, d :| LineAt(after, width, height, n, row, col, d, p);
    if p != q {
      forall k | 0 <= k < n
        ensures OwnedAt(states, width, height, Point(row, col, d, k), p)
      {
        assert OwnedAt(after, width, height, Point(row, col, d, k), p);
      }
      assert LineAt(states, width, height, n, row, col, d, p);
    }
  }
}

=== FILE: self_play.dfy ===
/**
 * The self-play driver: one agent plays both sides until the game ends, and
 * every recorded step is labelled with the game's outcome from the point of
 * view of the player who moved at that step. The agent is replaced by the
 * sequence of (move, move probabilities) answers it gives, in order.
 */
module SelfPlay {
  import opened Runs
  import opened GameBoard
  import opened Coords

  /**
   * The outcome labels of a finished game (1.0, -1.0 and 0.0 in the source):
   * 1 for every step of the winner, -1 for every step of the other player,
   * 0 everywhere after a draw (winner -1).
   */
  function WinnersZ(currentPlayers: seq<int>, winner: int): (z: seq<int>)
    ensures |z| == |currentPlayers|
    ensures winner == -1 ==> forall i :: 0 <= i < |z| ==> z[i] == 0
    ensures winner != -1 ==> forall i :: 0 <= i < |z| ==>
      && (z[i] == 1 || z[i] == -1)
      && (z[i] == 1 <==> currentPlayers[i] == winner)
  {
    if winner == -1 then seq(|currentPlayers|, i => 0)
    else seq(|currentPlayers|, i requires 0 <= i < |currentPlayers| =>
                                 if currentPlayers[i] == winner then 1 else -1)
  }

  /** The players to move at steps 0 .. k - 1 when `first` moves first. */
  function Movers(first: int, k: nat): (players: seq<int>)
  {
    seq(k, i requires 0 <= i < k => PlayerAt(first, i))
  }

  /**
   * When the last mover wins, labels count back from the end: +1 for the
   * last step and every second one before it, -1 for the steps between.
   */
  lemma WinnerLabelsAlternate(first: int, k: nat, winner: int)
    requires first == 1 || first == 2
    requires k >= 1 && winner == PlayerAt(first, k - 1)
    ensures forall i :: 0 <= i < k ==>
      WinnersZ(Movers(first, k), winner)[i] == if (k - 1 - i) % 2 == 0 then 1 else -1
  {
    var z := WinnersZ(Movers(first, k), winner);
    forall i | 0 <= i < k
      ensures z[i] == if (k - 1 - i) % 2 == 0 then 1 else -1
    {
      assert z[i] == 1 <==> PlayerAt(first, i) == PlayerAt(first, k - 1);
      if i % 2 == (k - 1) % 2 {
        assert (k - 1 - i) % 2 == 0;
      } else {
        assert (k - 1 - i) % 2 == 1;
      }
    }
  }

  /** One training sample: the position before a move, the agent's move probabilities and the label. */
  datatype Sample<P> = Sample(position: map<int, int>, probs: P, z: int)

  /** Python's `zip` of three lists: as long as the shortest, element by element. */
  function Zip<P>(positions: seq<map<int, int>>, probs: seq<P>, z: seq<int>): (samples: seq<Sample<P>>)
    ensures |samples| <= |positions| && |samples| <= |probs| && |samples| <= |z|
    ensures |samples| == |positions| || |samples| == |probs| || |samples| == |z|
    ensures forall i :: 0 <= i < |samples| ==> samples[i] == Sample(positions[i], probs[i], z[i])
  {
    if positions == [] || probs == [] || z == [] then []
    else [Sample(positions[0], probs[0], z[0])] + Zip(positions[1..], probs[1..], z[1..])
  }

  /** The moves an agent's answers name. */
  function MovesOf<P>(answers: seq<(int, P)>): (moves: seq<int>)
  {
    seq(|answers|, i requires 0 <= i < |answers| => answers[i].0)
  }

  /** The agent's move probabilities, answer by answer. */
  function ProbsOf<P>(answers: seq<(int, P)>): (probs: seq<P>)
  {
    seq(|answers|, i requires 0 <= i < |answers| => answers[i].1)
  }

  /** The position before each move of `history`, player 1 moving first. */
  function Positions(history: seq<int>): (positions: seq<map<int, int>>)
  {
    seq(|history|, i requires 0 <= i < |history| => Replay(history[..i], 1))
  }

  /** The game has not ended: nobody has a run and some cell is still empty. */
  ghost predicate InPlay(states: map<int, int>, width: int, height: int, n: int)
  {
    NoRun(states, width, height, n) && |states| < width * height
  }

  /**
   * The self-play records after the moves of `history`: one position, one
   * set of move probabilities and one player to move per move applied, the
   * moves being those the agent named, in order.
   */
  ghost predicate Recorded<P>(agent: seq<(int, P)>, history: seq<int>,
                              positions: seq<map<int, int>>, probs: seq<P>, currentPlayers: seq<int>)
  {
    && |history| <= |agent|
    && history == MovesOf(agent[..|history|])
    && positions == Positions(history)
    && probs == ProbsOf(agent[..|history|])
    && currentPlayers == Movers(1, |history|)
  }

  /** Every position from the empty board up to the k-th move was still in play. */
  ghost predicate InPlayThrough(history: seq<int>, k: nat, width: int, height: int, n: int)
    requires k <= |history|
  {
    forall j :: 0 <= j <= k ==> InPlay(Replay(history[..j], 1), width, height, n)
  }

  lemma MoversGrow(first: int, k: nat)
    ensures Movers(first, k + 1) == Movers(first, k) + [PlayerAt(first, k)]
  {
    var extended := Movers(first, k) + [PlayerAt(first, k)];
    forall i | 0 <= i < k + 1 ensures Movers(first, k + 1)[i] == extended[i] {}
  }

  lemma MovesOfGrow<P>(agent: seq<(int, P)>, k: nat)
    requires k < |agent|
    ensures MovesOf(agent[..k + 1]) == MovesOf(agent[..k]) + [agent[k].0]
  {
    var extended := MovesOf(agent[..k]) + [agent[k].0];
    forall i | 0 <= i < k + 1 ensures MovesOf(agent[..k + 1])[i] == extended[i] {}
  }

  lemma ProbsOfGrow<P>(agent: seq<(int, P)>, k: nat)
    requires k < |agent|
    ensures ProbsOf(agent[..k + 1]) == ProbsOf(agent[..k]) + [agent[k].1]
  {
    var extended := ProbsOf(agent[..k]) + [agent[k].1];
    forall i | 0 <= i < k + 1 ensures ProbsOf(agent[..k + 1])[i] == extended[i] {}
  }

  lemma PositionsGrow(history: seq<int>, move: int)
    ensures Positions(history + [move]) == Positions(history) + [Replay(history, 1)]
  {
    var history' := history + [move];
    var extended := Positions(history) + [Replay(history, 1)];
    forall i | 0 <= i < |history'| ensures Positions(history')[i] == extended[i] {
      assert history'[..i] == history[..i];
      if i == |history| {
        assert history[..i] == history;
      }
    }
  }

  /** Recording the agent's next answer and applying its move keeps the records in step. */
  lemma RecordNextMove<P>(agent: seq<(int, P)>, history: seq<int>,
                          positions: seq<map<int, int>>, probs: seq<P>, currentPlayers: seq<int>)
    requires Recorded(agent, history, positions, probs, currentPlayers)
    requires |history| < |agent|
    ensures Recorded(agent, history + [agent[|history|].0],
                     positions + [Replay(history, 1)], probs + [agent[|history|].1],
                     currentPlayers + [PlayerAt(1, |history|)])
  {
    var k := |history|;
    MovesOfGrow(agent, k);
    ProbsOfGrow(agent, k);
    PositionsGrow(history, agent[k].0);
    MoversGrow(1, k);
  }

  /** The positions before each move of a game are those before each earlier move and the last one. */
  lemma InPlayBeforeMove(history: seq<int>, move: int, width: int, height: int, n: int)
    requires InPlayThrough(history, |history|, width, height, n)
    ensures InPlayThrough(history + [move], |history|, width, height, n)
  {
    forall j | 0 <= j <= |history| ensures InPlay(Replay((history + [move])[..j], 1), width, height, n) {
      assert (history + [move])[..j] == history[..j];
    }
  }

  /** A further position in play extends the positions in play. */
  lemma InPlayNextMove(history: seq<int>, move: int, width: int, height: int, n: int)
    requires InPlayThrough(history, |history|, width, height, n)
    requires InPlay(Replay(history + [move], 1), width, height, n)
    ensures InPlayThrough(history + [move], |history| + 1, width, height, n)
  {
    var history' := history + [move];
    forall j | 0 <= j <= |history'| ensures InPlay(Replay(history'[..j], 1), width, height, n) {
      if j <= |history| {
        assert history'[..j] == history[..j];
      } else {
        assert history'[..j] == history';
      }
    }
  }

  /**
   * Sample i holds the position before move i, the agent's probabilities
   * for that move and the outcome label of the player who made it.
   */
  ghost predicate LabelledBy<P>(agent: seq<(int, P)>, history: seq<int>, winner: int, samples: seq<Sample<P>>)
    requires |history| <= |agent|
  {
    && |samples| == |history|
    && forall i :: 0 <= i < |history| ==>
         samples[i] == Sample(Replay(history[..i], 1), agent[i].1, WinnersZ(Movers(1, |history|), winner)[i])
  }

  /** Labels alternate back from +1 at the last sample. */
  predicate AlternatingLabels<P>(samples: seq<Sample<P>>)
  {
    forall i :: 0 <= i < |samples| ==> samples[i].z == if (|samples| - 1 - i) % 2 == 0 then 1 else -1
  }

  /**
   * What a finished self-play game promises about its samples, the moves
   * played and the final position: the moves are the agent's first answers,
   * one per sample; the samples are labelled by their movers; every position
   * before the last move was still in play; a win belongs to the last mover,
   * whose labels alternate back from +1 at the last step; a draw leaves a
   * full board without a run.
   */
  ghost predicate FinishedGame<P>(agent: seq<(int, P)>, history: seq<int>, states: map<int, int>,
                                  width: int, height: int, n: int, winner: int, samples: seq<Sample<P>>)
  {
    && 1 <= |history| <= |agent|
    && history == MovesOf(agent[..|history|])
    && LabelledBy(agent, history, winner, samples)
    && InPlayThrough(history, |history| - 1, width, height, n)
    && (winner != -1 ==>
          && winner == PlayerAt(1, |history| - 1)
          && HasRun(states, width, height, n, winner)
          && AlternatingLabels(samples))
    && (winner == -1 ==> NoRun(states, width, height, n) && |states| == width * height)
  }

  /**
   * Labelling the records of a game that ended after the move `move` with
   * the terminal check's verdict yields a finished game: the records pair
   * each position and probabilities with its label, and a winner can only
   * be the player who made the last move.
   */
  lemma ConcludeFinished<P>(agent: seq<(int, P)>, historyBefore: seq<int>, move: int, states: map<int, int>,
                            positions: seq<map<int, int>>, probs: seq<P>, currentPlayers: seq<int>,
                            width: int, height: int, n: int, winner: int)
    requires Recorded(agent, historyBefore + [move], positions, probs, currentPlayers)
    requires InPlayThrough(historyBefore, |historyBefore|, width, height, n)
    requires states == Replay(historyBefore, 1)[move := PlayerAt(1, |historyBefore|)]
    requires winner != -1 ==> HasRun(states, width, height, n, winner)
    requires winner == -1 ==> NoRun(states, width, height, n) && |states| == width * height
    ensures FinishedGame(agent, historyBefore + [move], states, width, height, n, winner,
                         Zip(positions, probs, WinnersZ(currentPlayers, winner)))
  {
    var history := historyBefore + [move];
    var samples := Zip(positions, probs, WinnersZ(currentPlayers, winner));
    LabelledSamples(agent, history, positions, probs, currentPlayers, winner);
    InPlayBeforeMove(historyBefore, move, width, height, n);
    if winner != -1 {
      LastMoverWins(historyBefore, move, states, width, height, n, winner);
      WinnerSamplesAlternate(agent, history, winner, samples);
    }
  }

  /** Labelling the records pairs each position and probabilities with the label of its mover. */
  lemma LabelledSamples<P>(agent: seq<(int, P)>, history: seq<int>,
                           positions: seq<map<int, int>>, probs: seq<P>, currentPlayers: seq<int>, winner: int)
    requires Recorded(agent, history, positions, probs, currentPlayers)
    ensures LabelledBy(agent, history, winner, Zip(positions, probs, WinnersZ(currentPlayers, winner)))
  {
  }

  /** When the last mover wins, the samples' labels alternate back from +1. */
  lemma WinnerSamplesAlternate<P>(agent: seq<(int, P)>, history: seq<int>, winner: int, samples: seq<Sample<P>>)
    requires |history| <= |agent| && LabelledBy(agent, history, winner, samples)
    requires |history| >= 1 && winner == PlayerAt(1, |history| - 1)
    ensures AlternatingLabels(samples)
  {
    WinnerLabelsAlternate(1, |history|, winner);
  }

  /** A run present after a move from a position in play belongs to the player who moved. */
  lemma LastMoverWins(historyBefore: seq<int>, move: int, states: map<int, int>,
                      width: int, height: int, n: int, winner: int)
    requires InPlayThrough(historyBefore, |historyBefore|, width, height, n)
    requires states == Replay(historyBefore, 1)[move := PlayerAt(1, |historyBefore|)]
    requires HasRun(states, width, height, n, winner)
    ensures winner == PlayerAt(1, |historyBefore|)
  {
    assert historyBefore[..|historyBefore|] == historyBefore;
    OnlyTheMoverCanWin(Replay(historyBefore, 1), width, height, n, move, PlayerAt(1, |historyBefore|), winner);
  }

  datatype SelfPlayOutcome<P> =
    | Finished(winner: int, samples: seq<Sample<P>>)  // the winner, or -1 for a draw, and the training data
    | BoardTooSmall                                  // the board cannot hold a run
    | IllegalMove(step: nat)                         // the agent's answer at this step named no available cell
    | AgentStopped(step: nat)                        // the agent gave no answer at this step

  class Game {
    const board: Board

    constructor (board: Board)
      ensures this.board == board
    {
      this.board := board;
    }

    /**
     * What a self-play run that got past `InitBoard` promises, by outcome.
     * Finished: see `FinishedGame`. IllegalMove(k): the agent's first k
     * moves were played and left the game in play, and its answer at step
     * k named a cell that was not available; that cell has nonetheless been
     * written for the player to move. AgentStopped: every answer was played
     * and the game is still in play.
     */
    ghost predicate PlayedOut<P>(agent: seq<(int, P)>, outcome: SelfPlayOutcome<P>)
      reads board
    {
      match outcome
      case Finished(winner, samples) =>
        && board.Valid() && board.first == 1
        && FinishedGame(agent, board.history, board.states, board.width, board.height, board.nInRow,
                        winner, samples)
      case IllegalMove(k) =>
        && k < |agent|
        && board.history == MovesOf(agent[..k])
        && InPlay(Replay(board.history, 1), board.width, board.height, board.nInRow)
        && agent[k].0 !in board.available
        && board.states == Replay(board.history, 1)[agent[k].0 := PlayerAt(1, k)]
      case AgentStopped(k) =>
        && k == |agent|
        && board.Valid()
        && board.history == MovesOf(agent)
        && InPlay(board.states, board.width, board.height, board.nInRow)
      case BoardTooSmall => false
    }

    /**
     * Self-play from the default start (player 1 first): refuses a board
     * smaller than the run length, otherwise plays the agent's answers out.
     */
    method StartSelfPlay<P>(agent: seq<(int, P)>) returns (outcome: SelfPlayOutcome<P>)
      requires board.Configured()
      modifies board
      ensures outcome.BoardTooSmall? <==> board.width < board.nInRow || board.height < board.nInRow
      ensures !outcome.BoardTooSmall? ==> PlayedOut(agent, outcome)
    {
      var status := board.InitBoard(0);
      if status.Failed? {
        return BoardTooSmall;
      }
      ShortGameHasNoRun([], 1, board.width, board.height, board.nInRow);
      MulMonotone(1, board.height, board.width);
      assert InPlay(Replay(board.history[..0], 1), board.width, board.height, board.nInRow);
      outcome := PlayOut(agent);
    }

    /**
     * The self-play loop. Before each move the position, the agent's move
     * probabilities and the player to move are recorded; the move is applied
     * and the terminal check run; at the end every record is labelled with
     * the outcome.
     */
    method PlayOut<P>(agent: seq<(int, P)>) returns (outcome: SelfPlayOutcome<P>)
      requires board.Valid() && board.first == 1 && board.history == []
      requires InPlay(board.states, board.width, board.height, board.nInRow)
      modifies board
      ensures PlayedOut(agent, outcome)
    {
      assert InPlayThrough(board.history, 0, board.width, board.height, board.nInRow) by {
        assert board.history[..0] == [];
      }
      var positions: seq<map<int, int>> := [];
      var probs: seq<P> := [];
      var currentPlayers: seq<int> := [];
      while true
        invariant board.Valid() && board.first == 1
        invariant Recorded(agent, board.history, positions, probs, currentPlayers)
        invariant InPlayThrough(board.history, |board.history|, board.width, board.height, board.nInRow)
        decreases |agent| - |positions|
      {
        var step := |positions|;
        if step == |agent| {
          assert board.history[..step] == board.history;
          assert agent[..step] == agent;
          return AgentStopped(step);
        }
        var (move, moveProbs) := agent[step];
        assert board.history[..step] == board.history;
        ghost var historyBefore := board.history;
        RecordNextMove(agent, historyBefore, positions, probs, currentPlayers);
        positions := positions + [board.states];
        probs := probs + [moveProbs];
        currentPlayers := currentPlayers + [board.currentPlayer];
        var ok := board.DoMove(move);
        if !ok {
          return IllegalMove(step);
        }
        var end, winner := board.GameEnd();
        if end {
          ConcludeFinished(agent, historyBefore, move, board.states, positions, probs, currentPlayers,
                           board.width, board.height, board.nInRow, winner);
          return Finished(winner, Zip(positions, probs, WinnersZ(currentPlayers, winner)));
        }
        InPlayNextMove(historyBefore, move, board.width, board.height, board.nInRow);
      }
    }
  }
}
